=== FILE: README.md ===
# Skyeng dictionary scraper — verified model

The repository is a Firebase Cloud Functions script. It has two jobs:

- It scrapes a table of English words and definitions from one Skyeng web page into the `dictionary` collection of Firestore.
- Once a day, it copies up to ten randomly chosen dictionary entries into the `dailyWords` collection.

This project models the pure logic inside that glue, in Dafny. It also models the effect each pipeline has on the two collections when a run succeeds.

- `text.dfy` (`Text`): `String.prototype.trim`, using the ECMAScript whitespace and line-terminator set. It proves that the trimmed text is the unique middle part between two whitespace margins.
- `seqs.dfy` (`Seqs`): a generic filter-then-map over a sequence, the shape of the `each` / `if` / `push` loop. It has lemmas on length, order, content and concatenation.
- `extraction.dfy` (`Extraction`): the row loop of `parseSkyengWords`.
  - The parsed page is the sequence of `table tbody tr` rows in document order. Each row is the sequence of its `td` cell texts.
  - Rows with fewer than two cells are skipped.
  - Every other row yields `{word: trim(cell 1), definition: trim(cell 3)}`, and a missing cell 3 reads as empty text.
  - `ParseRows` is the loop itself. `Extract` is its functional definition.
- `selection.dfy` (`Selection`): `getRandomWords`.
  - The random-comparator sort is replaced by an arbitrary permutation `shuffled` of the input, given as a parameter.
  - The prefix is taken as `slice(0, count)` does it, including negative `count`.
- `store.dfy` (`Store`): the two collections as values.
  - `UpdateDictionary` is one successful scrape run. It appends one document per extracted record and leaves `dailyWords` alone.
  - `DailyWordSelection` is one successful sampler run. It leaves `dictionary` alone and makes `dailyWords` hold exactly one document: `{words: getRandomWords(all, 10), date}`.
  - `DatePart` is `.split("T")[0]` applied to the run's ISO timestamp.

Four points where the code does less than a reader might assume. The model follows the code:

- The row selector `table tbody tr` matches the body rows of every table on the page, not only the first table.
- A row of two or three cells does not always get a non-empty `word`: `word` is whatever cell 1 trims to, and that can be empty. Only the empty `definition` is guaranteed (`RecordOf`).
- The shuffle is a sort with a comparator that answers at random, not a uniform shuffle. The model only assumes that the result is some permutation of the input.
- The sampler is documented as picking "10 unique words", but uniqueness holds per document id, not per word. The scrape never deduplicates, so from the second scrape of the same page on, one record is stored under several ids, and a daily selection can hold the same word and definition twice (`SameWordUnderTwoIds`).

## Model

| member | source | states |
|---|---|---|
| Text.Trim | functions/index.js:33-34 | the trimmed text neither starts nor ends with whitespace and is no longer than the input |
| Text.TrimUnique | functions/index.js:33-34 | whitespace margin + text with no whitespace at either end + whitespace margin trims to exactly that middle text |
| Text.TrimDecomposes | functions/index.js:33-34 | every string is a whitespace margin, then its trim, then another whitespace margin |
| Text.TrimIdempotent | functions/index.js:33-34 | trimming twice gives the same text as trimming once |
| Text.TrimKeepsTrimmed | functions/index.js:33-34 | text with no whitespace at either end is unchanged by trim |
| Extraction.RecordOf | functions/index.js:33-35 | the word is the trimmed text of cell 1; the definition is the trimmed text of cell 3, and is empty when the row has at most three cells; neither field has surrounding whitespace |
| Extraction.Extract | functions/index.js:27-39 | the loop yields at most one record per row |
| Extraction.ParseRows | functions/index.js:27-39 | the visit-and-push loop returns exactly the records of `Extract`, one per row with at least two cells |
| Extraction.ExtractLength | functions/index.js:30-37 | the number of records equals the number of rows with at least two cells |
| Extraction.ExtractFollowsRows | functions/index.js:30-37 | the k-th record is the record of the k-th qualifying row in document order; with `RecordOf`, its word is the trimmed cell 1 and its definition is the trimmed cell 3, or empty if there is no cell 3 |
| Extraction.ExtractAppend | functions/index.js:30-37 | rows are handled independently: extracting a concatenation of pages concatenates their outputs |
| Extraction.ShortRowContributesNothing | functions/index.js:31-35 | inserting a row leaves the output unchanged if and only if the row has fewer than two cells; otherwise its record appears at that position |
| Extraction.RecordOfCleanRow | functions/index.js:33-34 | cells without surrounding whitespace are copied into the record verbatim |
| Seqs.FilterMapLength | functions/index.js:30-37 | filter-then-map yields one output per element that passes the test |
| Seqs.FilterMapFollowsOrigins | functions/index.js:30-37 | the k-th output is made from the k-th passing element, in input order |
| Seqs.Origins | functions/index.js:30-32 | the positions of passing elements, strictly increasing, with every passing position present |
| Seqs.FilterMapAppend | functions/index.js:30-37 | filter-then-map distributes over concatenation |
| Selection.GetRandomWords | functions/index.js:139-142 | returns min(count, \|words\|) elements for count ≥ 0, and slice's clamped length for negative count; the result is a sub-multiset of the input, and the whole input when count ≥ \|words\| |
| Selection.PermutationKeepsNoDuplicates | functions/index.js:140 | reordering a list with no repeats gives a list with no repeats |
| Selection.SelectionHasNoRepeats | functions/index.js:139-142 | picking from a list with no repeats never picks an element twice |
| Store.AddAll | functions/index.js:57-59 | one new document per record, appended in record order, each with its own store-assigned id; existing documents are kept |
| Store.StoreWords | functions/index.js:57-61 | the dictionary grows by one document per record (multiset union, no deduplication); dailyWords is unchanged |
| Store.UpdateDictionary | functions/index.js:54-61 | a scrape run adds as many documents as there are rows with at least two cells, carrying exactly the extracted records; dailyWords is unchanged |
| Store.ScrapeTwiceDuplicates | functions/index.js:57-61 | two runs on the same page add every record twice, so each entry's multiplicity grows by twice its count on the page |
| Store.ScrapeNotIdempotent | functions/index.js:57-61 | if the page yields any record, a second run changes the store again |
| Store.StoreWordsKeepsIdsDistinct | functions/index.js:57-58 | fresh, pairwise-distinct ids keep all dictionary document ids distinct |
| Store.AllWords | functions/index.js:103-106 | one entry per dictionary document; a value is in the list if and only if it is some document's id spread together with its word and definition; the entries' ids are distinct exactly when the documents' ids are |
| Store.DatePart | functions/index.js:123 | the date is the longest prefix of the timestamp without a `T`, stopping at the first `T` |
| Store.DatePartOfTimestamp | functions/index.js:123 | a timestamp `date + "T" + time` whose date has no `T` yields exactly that date |
| Store.DailyWordSelection | functions/index.js:100-124 | after a sampler run, `dictionary` is unchanged and `dailyWords` holds exactly one document; it has min(10, \|dictionary\|) words drawn without replacement from the dictionary (all of them when there are at most 10), and its date is the date part of the run's timestamp |
| Store.SelectedWordsComeFromDictionary | functions/index.js:103-118 | every selected word is a copy of some dictionary document: same id, word and definition |
| Store.DailySelectionHasNoRepeats | functions/index.js:103-118 | when dictionary ids are distinct, the selected words have pairwise-distinct ids |
| Store.SameWordUnderTwoIds | functions/index.js:92-118 | the "unique words" of the sampler are unique only by id: one record stored under two distinct ids gives a selection of two entries with distinct ids but the same word and definition |
| Store.DailySelectionReplacesPrevious | functions/index.js:109-124 | the outcome of a sampler run does not depend on what dailyWords held before |

## Left out

- The HTTP fetch of the page (`axios.get`, functions/index.js:19-21) is network I/O. The model starts from the fetched page's rows.
- HTML parsing and CSS selection (cheerio, functions/index.js:24, 30-31) belong to a foreign library. The model takes the `tr` rows and their `td` cell texts as input. In particular, a header row made of `th` cells is a row with no `td` cells.
- Firestore calls (`add`, `get`, `delete`) and `admin.initializeApp` (functions/index.js:9-10, 58, 80, 100, 109-113, 121) are I/O against a managed store. The collections appear only as values. Document ids are parameters: the ids of new dictionary documents are passed in, and the id of the new `dailyWords` document is not represented.
- The `Promise.all` fan-out and partial failure (functions/index.js:61, 110-113) are left out. These are concurrent, non-atomic writes. Only complete, sequential runs are modelled, with no interleaving of the two pipelines.
- Error paths are left out: the catch-and-log handlers, the rethrow in `parseSkyengWords`, and the 500 response (functions/index.js:40-43, 64-66, 86-89, 127-129). A failed run only logs, and its partial effects come from partial failure, which is out of scope.
- Selection.GetRandomWords is a pure function: it does not model that `words.sort(...)` (functions/index.js:140) reorders the caller's array in place and returns that same array. This changes no outcome: `allWords` is not read after the selection at functions/index.js:118.
- Store.AllWords lists the documents in the order the model's sequence holds them, that is, append order. Firestore's `get()` (functions/index.js:100) returns documents ordered by document id instead. This changes no outcome: the selection takes an arbitrary permutation of the list, and every claim about `dictionary` is stated on multisets or on membership.
- `Math.random` and the engine's sort with an inconsistent comparator (functions/index.js:140) are out. They are replaced by an arbitrary permutation parameter, so nothing is said about the distribution of the selection.
- The clock read `new Date().toISOString()` (functions/index.js:123) is out. The timestamp is a parameter, and only the `split("T")[0]` step is modelled.
- Trigger wiring, schedules, the HTTP success response and logging (`onSchedule`, `onRequest`, `logger`, functions/index.js:49-51, 73, 85, 95-97) are platform plumbing.
- functions/.eslintrc.js is linter configuration with no behaviour.

=== FILE: extraction.dfy ===
/**
  Row extraction of the Skyeng scraper: the loop over `table tbody tr` that
  turns table rows into `{word, definition}` records.

  The parsed page is given as the sequence of its `table tbody tr` rows in
  document order, each row being the sequence of the texts of its `td` cells
  in document order. Fetching the page and running the HTML parser are not
  part of this model.
 */
module Extraction {
  import opened Text
  import opened Seqs

  /** The texts of the `td` cells of one table row, in document order. */
  type Row = seq<string>

  /** One extracted dictionary record. */
  datatype WordEntry = WordEntry(word: string, definition: string)

  /** Fewest cells a row needs to yield a record. */
  const MinCells := 2
  /** Cell index holding the word. */
  const WordColumn := 1
  /** Cell index holding the definition. */
  const DefinitionColumn := 3

  /** Text of cell `i`; a cell that does not exist reads as empty text, as
      wrapping a missing element and asking for its text does. */
  function CellText(row: Row, i: nat): string {
    if i < |row| then row[i] else ""
  }

  /** Whether a row yields a record at all. */
  predicate Qualifies(row: Row) {
    |row| >= MinCells
  }

  /** Positions of the rows that yield a record. */
  ghost function QualifyingRows(rows: seq<Row>): set<nat> {
    KeptIndices(rows, Qualifies)
  }

  /** The record a qualifying row yields. */
  function RecordOf(row: Row): (e: WordEntry)
    ensures Trimmed(e.word) && Trimmed(e.definition)
    ensures |row| > WordColumn ==> e.word == Trim(row[WordColumn])
    ensures |row| > DefinitionColumn ==> e.definition == Trim(row[DefinitionColumn])
    ensures |row| <= DefinitionColumn ==> e.definition == ""
  {
    WordEntry(Trim(CellText(row, WordColumn)), Trim(CellText(row, DefinitionColumn)))
  }

  /** The records the loop collects: one per qualifying row, in row order. */
  function Extract(rows: seq<Row>): (r: seq<WordEntry>)
    ensures |r| <= |rows|
  {
    FilterMap(rows, Qualifies, RecordOf)
  }

  /** The loop itself: visit each row, push a record for each qualifying one. */
  method ParseRows(rows: seq<Row>) returns (words: seq<WordEntry>)
    ensures words == Extract(rows)
    ensures |words| == |QualifyingRows(rows)|
  {
    words := [];
    var i := 0;
    while i < |rows|
      invariant 0 <= i <= |rows|
      invariant words == Extract(rows[..i])
    {
      var columns := rows[i];
      assert rows[..i + 1] == rows[..i] + [columns];
      FilterMapSnoc(rows[..i], columns, Qualifies, RecordOf);
      if |columns| >= MinCells {
        words := words + [RecordOf(columns)];
      }
      i := i + 1;
    }
    assert rows[..i] == rows;
    ExtractLength(rows);
  }

  /** One record per qualifying row: the output is exactly as long as the
      number of rows with at least two cells. */
  lemma ExtractLength(rows: seq<Row>)
    ensures |Extract(rows)| == |QualifyingRows(rows)|
  {
    FilterMapLength(rows, Qualifies, RecordOf);
  }

  /** Order and content: listing the qualifying rows in increasing position
      order, the k-th record is the record of the k-th of them (so, by
      `RecordOf`, its trimmed cell 1 and trimmed cell 3). */
  lemma ExtractFollowsRows(rows: seq<Row>)
    ensures |Extract(rows)| == |Origins(rows, Qualifies)|
    ensures forall k :: 0 <= k < |Origins(rows, Qualifies)| ==>
      Extract(rows)[k] == RecordOf(rows[Origins(rows, Qualifies)[k]])
  {
    FilterMapFollowsOrigins(rows, Qualifies, RecordOf);
  }

  /** Splitting the page anywhere splits the output at the matching place. */
  lemma ExtractAppend(a: seq<Row>, b: seq<Row>)
    ensures Extract(a + b) == Extract(a) + Extract(b)
  {
    FilterMapAppend(a, b, Qualifies, RecordOf);
  }

  /** A row with fewer than two cells contributes nothing, and a row with at
      least two contributes its record in place. */
  lemma ShortRowContributesNothing(before: seq<Row>, row: Row, after: seq<Row>)
    ensures Extract(before + [row] + after) == Extract(before + after) <==> |row| < MinCells
    ensures |row| >= MinCells ==>
      Extract(before + [row] + after) == Extract(before) + [RecordOf(row)] + Extract(after)
  {
    var x, y := Extract(before), Extract(after);
    FilterMapAppend(before + [row], after, Qualifies, RecordOf);
    FilterMapAppend(before, after, Qualifies, RecordOf);
    FilterMapSnoc(before, row, Qualifies, RecordOf);
    if |row| < MinCells {
      assert x + [] + y == x + y;
    } else {
      assert |x + [RecordOf(row)] + y| == |x + y| + 1;
    }
  }

  /** A row whose word and definition cells carry no surrounding
      whitespace yields them unchanged. */
  lemma RecordOfCleanRow(row: Row)
    requires |row| > DefinitionColumn
    requires Trimmed(row[WordColumn]) && Trimmed(row[DefinitionColumn])
    ensures RecordOf(row) == WordEntry(row[WordColumn], row[DefinitionColumn])
  {
    TrimKeepsTrimmed(row[WordColumn]);
    TrimKeepsTrimmed(row[DefinitionColumn]);
  }
}

=== FILE: selection.dfy ===
/**
  Random selection of words: shuffle the list, keep a prefix.

  The shuffle sorts with a comparator that answers at random; whatever order
  that leaves is some permutation of the input, so the model takes that
  permutation as a parameter. Taking the prefix follows `Array.prototype.slice`
  with start 0, including its treatment of a negative end.
 */
module Selection {

  /** No two elements of `s` share a key. */
  predicate DistinctBy<T, K(==)>(s: seq<T>, key: T -> K) {
    forall i, j :: 0 <= i < j < |s| ==> key(s[i]) != key(s[j])
  }

  /** No element occurs twice: distinct under the identity key. */
  predicate NoDuplicates<T(==)>(s: seq<T>) {
    DistinctBy(s, (x: T) => x)
  }

  /** Where `slice(0, end)` stops on an array of length `len`: a negative end
      counts back from the length, and the result is clamped to `0..len`. */
  function SliceEnd(len: nat, end: int): (n: nat)
    ensures n <= len
  {
    if end < 0 then
      if len + end > 0 then len + end else 0
    else if end < len then end
    else len
  }

  /** The first `count` elements of the shuffled list (`shuffled` being the
      order the random sort left the list in). */
  function GetRandomWords<T(==)>(words: seq<T>, count: int, shuffled: seq<T>): (r: seq<T>)
    requires multiset(shuffled) == multiset(words)
    ensures 0 <= count ==> |r| == if count < |words| then count else |words|
    ensures count < 0 ==> |r| == if |words| + count > 0 then |words| + count else 0
    ensures multiset(r) <= multiset(words)
    ensures |words| <= count ==> multiset(r) == multiset(words)
  {
    assert |shuffled| == |multiset(shuffled)| == |multiset(words)| == |words|;
    var n := SliceEnd(|shuffled|, count);
    assert shuffled == shuffled[..n] + shuffled[n..];
    shuffled[..n]
  }

  /** A list without repeats holds each value at most once. */
  lemma {:induction false} NoDuplicatesMultiplicity<T>(s: seq<T>, x: T)
    requires NoDuplicates(s)
    ensures multiset(s)[x] <= 1
    decreases |s|
  {
    if |s| > 0 {
      var rest := s[1..];
      assert s == [s[0]] + rest;
      assert NoDuplicates(rest) by {
        forall i, j | 0 <= i < j < |rest|
          ensures rest[i] != rest[j]
        {
          assert rest[i] == s[i + 1] && rest[j] == s[j + 1];
        }
      }
      NoDuplicatesMultiplicity(rest, x);
      if x == s[0] {
        assert x !in rest by {
          forall i | 0 <= i < |rest|
            ensures rest[i] != x
          {
            assert rest[i] == s[i + 1];
          }
        }
      }
    }
  }

  /** A value found at two positions occurs at least twice. */
  lemma RepeatMultiplicity<T>(s: seq<T>, i: nat, j: nat)
    requires i < j < |s| && s[i] == s[j]
    ensures multiset(s)[s[i]] >= 2
  {
    assert s == s[..i] + [s[i]] + s[i + 1..j] + [s[j]] + s[j + 1..];
  }

  /** Reordering a list without repeats gives a list without repeats. */
  lemma PermutationKeepsNoDuplicates<T>(words: seq<T>, shuffled: seq<T>)
    requires multiset(shuffled) == multiset(words)
    requires NoDuplicates(words)
    ensures NoDuplicates(shuffled)
  {
    forall i, j | 0 <= i < j < |shuffled|
      ensures shuffled[i] != shuffled[j]
    {
      if shuffled[i] == shuffled[j] {
        RepeatMultiplicity(shuffled, i, j);
        NoDuplicatesMultiplicity(words, shuffled[i]);
        assert false;
      }
    }
  }

  /** Nothing is picked twice from a list without repeats. */
  lemma SelectionHasNoRepeats<T>(words: seq<T>, count: int, shuffled: seq<T>)
    requires multiset(shuffled) == multiset(words)
    requires NoDuplicates(words)
    ensures NoDuplicates(GetRandomWords(words, count, shuffled))
  {
    PermutationKeepsNoDuplicates(words, shuffled);
  }
}

=== FILE: seqs.dfy ===
/**
  Filter-then-map over a sequence, the shape of a loop that visits every
  element in order and pushes one output for each element that passes a
  test. The lemmas pin down its length, order, content and behaviour under
  concatenation, independently of what the test and the mapping compute.
 */
module Seqs {

  /** `make(x)` for every `x` of `xs` with `keep(x)`, in the order of `xs`. */
  function FilterMap<A, B>(xs: seq<A>, keep: A -> bool, make: A -> B): (r: seq<B>)
    ensures |r| <= |xs|
    decreases |xs|
  {
    if |xs| == 0 then []
    else
      var last := xs[|xs| - 1];
      FilterMap(xs[..|xs| - 1], keep, make) + (if keep(last) then [make(last)] else [])
  }

  /** One more element at the end adds its output, if any, at the end. */
  lemma FilterMapSnoc<A, B>(xs: seq<A>, x: A, keep: A -> bool, make: A -> B)
    ensures FilterMap(xs + [x], keep, make)
         == FilterMap(xs, keep, make) + (if keep(x) then [make(x)] else [])
  {
    assert (xs + [x])[..|xs|] == xs;
  }

  /** Positions of the elements that pass the test. */
  ghost function KeptIndices<A>(xs: seq<A>, keep: A -> bool): set<nat> {
    set i: nat | i < |xs| && keep(xs[i])
  }

  /** One output per passing element. */
  lemma {:induction false} FilterMapLength<A, B>(xs: seq<A>, keep: A -> bool, make: A -> B)
    ensures |FilterMap(xs, keep, make)| == |KeptIndices(xs, keep)|
    decreases |xs|
  {
    if |xs| > 0 {
      var n := |xs|;
      var init := xs[..n - 1];
      FilterMapLength(init, keep, make);
      assert xs == init + [xs[n - 1]];
      FilterMapSnoc(init, xs[n - 1], keep, make);
      var s := KeptIndices(init, keep);
      var q := if keep(xs[n - 1]) then {n - 1} else {};
      forall i: nat
        ensures i in KeptIndices(xs, keep) <==> i in s + q
      {
        if i < n - 1 {
          assert xs[i] == init[i];
        }
      }
      assert KeptIndices(xs, keep) == s + q;
      assert s !! q;
    }
  }

  /** Positions of the passing elements in increasing order: each passing
      position appears, and nothing else does. */
  ghost function Origins<A>(xs: seq<A>, keep: A -> bool): (o: seq<nat>)
    ensures |o| <= |xs|
    ensures forall k :: 0 <= k < |o| ==> o[k] < |xs| && keep(xs[o[k]])
    ensures forall k, l :: 0 <= k < l < |o| ==> o[k] < o[l]
    ensures forall i :: 0 <= i < |xs| && keep(xs[i]) ==> i in o
    decreases |xs|
  {
    if |xs| == 0 then []
    else
      var n := |xs|;
      var o := Origins(xs[..n - 1], keep);
      assert forall i :: 0 <= i < n - 1 ==> xs[..n - 1][i] == xs[i];
      if keep(xs[n - 1]) then o + [n - 1] else o
  }

  /** The k-th output is made from the k-th passing element. */
  lemma {:induction false} FilterMapFollowsOrigins<A, B>(xs: seq<A>, keep: A -> bool, make: A -> B)
    ensures |FilterMap(xs, keep, make)| == |Origins(xs, keep)|
    ensures forall k :: 0 <= k < |Origins(xs, keep)| ==>
      FilterMap(xs, keep, make)[k] == make(xs[Origins(xs, keep)[k]])
    decreases |xs|
  {
    if |xs| > 0 {
      var n := |xs|;
      var init := xs[..n - 1];
      FilterMapFollowsOrigins(init, keep, make);
      assert xs == init + [xs[n - 1]];
      FilterMapSnoc(init, xs[n - 1], keep, make);
      assert forall i :: 0 <= i < n - 1 ==> init[i] == xs[i];
    }
  }

  /** Elements are handled independently: splitting the input anywhere
      splits the output at the matching place. */
  lemma {:induction false} FilterMapAppend<A, B>(a: seq<A>, b: seq<A>, keep: A -> bool, make: A -> B)
    ensures FilterMap(a + b, keep, make) == FilterMap(a, keep, make) + FilterMap(b, keep, make)
    decreases |b|
  {
    if |b| == 0 {
      assert a + b == a;
    } else {
      var init, last := b[..|b| - 1], b[|b| - 1];
      assert b == init + [last];
      assert a + b == (a + init) + [last];
      FilterMapSnoc(a + init, last, keep, make);
      FilterMapSnoc(init, last, keep, make);
      FilterMapAppend(a, init, keep, make);
    }
  }
}

=== FILE: store.dfy ===
/**
  The two pipelines as transitions of the document store, on their success
  path and run one at a time.

  The store is reduced to its two collections. `dictionary` is modelled as a
  sequence of documents; `AddAll` states where new documents go, but the
  claims about whole runs are stated on multisets and membership, which do
  not depend on that order. Document identifiers are assigned by the
  store; the model receives them as parameters.
 */
module Store {
  import opened Extraction
  import opened Selection

  /** A document of the `dictionary` collection. */
  datatype DictionaryDoc = DictionaryDoc(id: string, data: WordEntry)

  /** One element of a daily selection: the document identifier spread
      together with the document's fields. */
  datatype SelectedWord = SelectedWord(id: string, word: string, definition: string)

  /** A document of the `dailyWords` collection. */
  datatype DailyDoc = DailyDoc(words: seq<SelectedWord>, date: string)

  datatype Collections = Collections(dictionary: seq<DictionaryDoc>, dailyWords: seq<DailyDoc>)

  /** How many words the daily selection asks for. */
  const DailyCount := 10

  /** The records held by a list of dictionary documents. */
  function Entries(docs: seq<DictionaryDoc>): seq<WordEntry> {
    seq(|docs|, k requires 0 <= k < |docs| => docs[k].data)
  }

  function DocId(d: DictionaryDoc): string { d.id }

  function WordId(w: SelectedWord): string { w.id }

  /** No two dictionary documents share an identifier. */
  predicate DistinctIds(docs: seq<DictionaryDoc>) {
    DistinctBy(docs, DocId)
  }

  /** No two selected words share an identifier. */
  predicate DistinctSelectedIds(words: seq<SelectedWord>) {
    DistinctBy(words, WordId)
  }

  /** Adds one document per record, in record order, the k-th taking the
      k-th identifier. */
  function AddAll(docs: seq<DictionaryDoc>, records: seq<WordEntry>, ids: seq<string>): (r: seq<DictionaryDoc>)
    requires |ids| == |records|
    ensures |r| == |docs| + |records|
    ensures r[..|docs|] == docs
    ensures forall k :: 0 <= k < |records| ==> r[|docs| + k] == DictionaryDoc(ids[k], records[k])
    decreases |records|
  {
    if |records| == 0 then docs
    else AddAll(docs + [DictionaryDoc(ids[0], records[0])], records[1..], ids[1..])
  }

  /** Entries of the documents before and after an append. */
  lemma EntriesAppend(a: seq<DictionaryDoc>, b: seq<DictionaryDoc>)
    ensures Entries(a + b) == Entries(a) + Entries(b)
  {
  }

  /** Storing a batch of records: the success path of the `add` fan-out. */
  function StoreWords(c: Collections, records: seq<WordEntry>, ids: seq<string>): (r: Collections)
    requires |ids| == |records|
    ensures r.dailyWords == c.dailyWords
    ensures |r.dictionary| == |c.dictionary| + |records|
    ensures multiset(Entries(r.dictionary)) == multiset(Entries(c.dictionary)) + multiset(records)
  {
    var d := AddAll(c.dictionary, records, ids);
    assert d == d[..|c.dictionary|] + d[|c.dictionary|..];
    assert Entries(d[|c.dictionary|..]) == records;
    EntriesAppend(d[..|c.dictionary|], d[|c.dictionary|..]);
    Collections(d, c.dailyWords)
  }

  /** One successful scrape run (either trigger): extract the records from
      the table rows and store one document per record. */
  function UpdateDictionary(c: Collections, rows: seq<Row>, ids: seq<string>): (r: Collections)
    requires |ids| == |Extract(rows)|
    ensures r.dailyWords == c.dailyWords
    ensures |r.dictionary| == |c.dictionary| + |QualifyingRows(rows)|
    ensures multiset(Entries(r.dictionary)) == multiset(Entries(c.dictionary)) + multiset(Extract(rows))
  {
    ExtractLength(rows);
    StoreWords(c, Extract(rows), ids)
  }

  /** No deduplication: two runs on the same page store every record twice
      more, whatever identifiers the store hands out. */
  lemma ScrapeTwiceDuplicates(c: Collections, rows: seq<Row>, ids1: seq<string>, ids2: seq<string>)
    requires |ids1| == |Extract(rows)| && |ids2| == |Extract(rows)|
    ensures var c2 := UpdateDictionary(UpdateDictionary(c, rows, ids1), rows, ids2);
      forall e :: multiset(Entries(c2.dictionary))[e]
               == multiset(Entries(c.dictionary))[e] + 2 * multiset(Extract(rows))[e]
  {
  }

  /** Scraping is not idempotent: as soon as the page yields a record, a
      second run changes the store again. */
  lemma ScrapeNotIdempotent(c: Collections, rows: seq<Row>, ids1: seq<string>, ids2: seq<string>)
    requires |ids1| == |Extract(rows)| && |ids2| == |Extract(rows)|
    requires Extract(rows) != []
    ensures var c1 := UpdateDictionary(c, rows, ids1);
      UpdateDictionary(c1, rows, ids2) != c1
  {
    var c1 := UpdateDictionary(c, rows, ids1);
    assert |UpdateDictionary(c1, rows, ids2).dictionary| == |c1.dictionary| + |Extract(rows)|;
  }

  /** Fresh, distinct identifiers keep the identifiers of the dictionary
      distinct. */
  lemma StoreWordsKeepsIdsDistinct(c: Collections, records: seq<WordEntry>, ids: seq<string>)
    requires |ids| == |records|
    requires DistinctIds(c.dictionary)
    requires forall i, j :: 0 <= i < j < |ids| ==> ids[i] != ids[j]
    requires forall k, d :: 0 <= k < |ids| && d in c.dictionary ==> d.id != ids[k]
    ensures DistinctIds(StoreWords(c, records, ids).dictionary)
  {
    var d := StoreWords(c, records, ids).dictionary;
    var n := |c.dictionary|;
    forall i, j | 0 <= i < j < |d|
      ensures d[i].id != d[j].id
    {
      if j < n {
        assert d[i] == c.dictionary[i] && d[j] == c.dictionary[j];
      } else if i < n {
        assert d[i] == c.dictionary[i];
        assert d[j].id == ids[j - n];
      } else {
        assert d[i].id == ids[i - n] && d[j].id == ids[j - n];
      }
    }
  }

  /** A dictionary document as the sampler reads it: its identifier spread
      together with its fields. */
  function Spread(d: DictionaryDoc): SelectedWord {
    SelectedWord(d.id, d.data.word, d.data.definition)
  }

  /** All dictionary documents as the sampler reads them. */
  function AllWords(docs: seq<DictionaryDoc>): (ws: seq<SelectedWord>)
    ensures |ws| == |docs|
    ensures forall w :: w in ws <==> exists d :: d in docs && w == Spread(d)
    ensures DistinctSelectedIds(ws) <==> DistinctIds(docs)
  {
    var ws := seq(|docs|, k requires 0 <= k < |docs| => Spread(docs[k]));
    assert forall k :: 0 <= k < |docs| ==> WordId(ws[k]) == DocId(docs[k]);
    assert forall d :: d in docs ==> Spread(d) in ws by {
      forall d | d in docs
        ensures Spread(d) in ws
      {
        var k :| 0 <= k < |docs| && docs[k] == d;
        assert ws[k] == Spread(d);
      }
    }
    ws
  }

  /** The calendar date of an ISO-8601 timestamp: everything before the
      first `T` (the whole text when there is none). */
  function DatePart(iso: string): (r: string)
    ensures |r| <= |iso| && r == iso[..|r|]
    ensures 'T' !in r
    ensures |r| < |iso| ==> iso[|r|] == 'T'
    decreases |iso|
  {
    if |iso| == 0 || iso[0] == 'T' then ""
    else [iso[0]] + DatePart(iso[1..])
  }

  /** A timestamp `date + "T" + time` yields `date` whenever `date` holds no
      `T`, as every `YYYY-MM-DD` calendar date does. */
  lemma {:induction false} DatePartOfTimestamp(date: string, time: string)
    requires 'T' !in date
    ensures DatePart(date + "T" + time) == date
    decreases |date|
  {
    var iso := date + "T" + time;
    if |date| == 0 {
      assert iso[0] == 'T';
    } else {
      assert iso[0] == date[0];
      assert iso[1..] == date[1..] + "T" + time;
      assert 'T' !in date[1..] by {
        forall i | 0 <= i < |date[1..]|
          ensures date[1..][i] != 'T'
        {
          assert date[1..][i] == date[i + 1];
        }
      }
      DatePartOfTimestamp(date[1..], time);
      assert date == [date[0]] + date[1..];
    }
  }

  /** One successful run of the daily sampler: read the dictionary, clear
      `dailyWords`, pick up to ten words and store them as the only daily
      document. `shuffled` is the order the random sort left the words in;
      `now` is the timestamp of the run. */
  function DailyWordSelection(c: Collections, shuffled: seq<SelectedWord>, now: string): (r: Collections)
    requires multiset(shuffled) == multiset(AllWords(c.dictionary))
    ensures r.dictionary == c.dictionary
    ensures |r.dailyWords| == 1
    ensures |r.dailyWords[0].words| == if |c.dictionary| < DailyCount then |c.dictionary| else DailyCount
    ensures multiset(r.dailyWords[0].words) <= multiset(AllWords(c.dictionary))
    ensures |c.dictionary| <= DailyCount ==> multiset(r.dailyWords[0].words) == multiset(AllWords(c.dictionary))
    ensures r.dailyWords[0].date == DatePart(now)
  {
    var allWords := AllWords(c.dictionary);
    Collections(c.dictionary, [DailyDoc(GetRandomWords(allWords, DailyCount, shuffled), DatePart(now))])
  }

  /** Every selected word is a copy of a dictionary document. */
  lemma SelectedWordsComeFromDictionary(c: Collections, shuffled: seq<SelectedWord>, now: string)
    requires multiset(shuffled) == multiset(AllWords(c.dictionary))
    ensures forall w :: w in DailyWordSelection(c, shuffled, now).dailyWords[0].words ==>
      exists d :: d in c.dictionary && w == Spread(d)
  {
    var ws := DailyWordSelection(c, shuffled, now).dailyWords[0].words;
    var all := AllWords(c.dictionary);
    forall w | w in ws
      ensures exists d :: d in c.dictionary && w == Spread(d)
    {
      assert w in multiset(ws);
      assert w in multiset(all);
    }
  }

  /** With distinct document identifiers, no document is selected twice. */
  lemma DailySelectionHasNoRepeats(c: Collections, shuffled: seq<SelectedWord>, now: string)
    requires multiset(shuffled) == multiset(AllWords(c.dictionary))
    requires DistinctIds(c.dictionary)
    ensures DistinctSelectedIds(DailyWordSelection(c, shuffled, now).dailyWords[0].words)
  {
    var all := AllWords(c.dictionary);
    var ws := DailyWordSelection(c, shuffled, now).dailyWords[0].words;
    assert DistinctSelectedIds(all);
    assert NoDuplicates(all) by {
      forall i, j | 0 <= i < j < |all|
        ensures all[i] != all[j]
      {
        assert WordId(all[i]) != WordId(all[j]);
      }
    }
    SelectionHasNoRepeats(all, DailyCount, shuffled);
    forall i, j | 0 <= i < j < |ws|
      ensures WordId(ws[i]) != WordId(ws[j])
    {
      assert ws[i] in multiset(all) && ws[j] in multiset(all);
      var a :| 0 <= a < |all| && all[a] == ws[i];
      var b :| 0 <= b < |all| && all[b] == ws[j];
      assert ws[i] != ws[j];
      assert a != b;
      if a < b {
        assert WordId(all[a]) != WordId(all[b]);
      } else {
        assert WordId(all[b]) != WordId(all[a]);
      }
    }
  }

  /** Distinct identifiers do not make distinct words: the scrape never
      deduplicates, so one record can sit under two identifiers, and a
      selection that takes both holds the same word and definition twice. */
  lemma SameWordUnderTwoIds(e: WordEntry, a: string, b: string, previous: seq<DailyDoc>,
                            shuffled: seq<SelectedWord>, now: string)
    requires a != b
    requires multiset(shuffled) == multiset(AllWords([DictionaryDoc(a, e), DictionaryDoc(b, e)]))
    ensures var c := Collections([DictionaryDoc(a, e), DictionaryDoc(b, e)], previous);
      var ws := DailyWordSelection(c, shuffled, now).dailyWords[0].words;
      && DistinctIds(c.dictionary)
      && |ws| == 2 && ws[0].id != ws[1].id
      && ws[0].word == ws[1].word == e.word
      && ws[0].definition == ws[1].definition == e.definition
  {
    var docs := [DictionaryDoc(a, e), DictionaryDoc(b, e)];
    var c := Collections(docs, previous);
    var ws := DailyWordSelection(c, shuffled, now).dailyWords[0].words;
    assert DocId(docs[0]) != DocId(docs[1]);
    assert DistinctIds(docs);
    assert ws == shuffled;
    SelectionHasNoRepeats(AllWords(docs), DailyCount, shuffled);
    assert ws[0] in multiset(AllWords(docs)) && ws[1] in multiset(AllWords(docs));
  }

  /** The sampler overwrites: its outcome does not depend on what
      `dailyWords` held before. */
  lemma DailySelectionReplacesPrevious(c: Collections, previous: seq<DailyDoc>, shuffled: seq<SelectedWord>, now: string)
    requires multiset(shuffled) == multiset(AllWords(c.dictionary))
    ensures DailyWordSelection(Collections(c.dictionary, previous), shuffled, now)
         == DailyWordSelection(c, shuffled, now)
  {
  }
}

=== FILE: text.dfy ===
/**
  Whitespace trimming as done by `String.prototype.trim`, which the scraper
  applies to the text of every table cell it reads.

  `Trim` strips, from both ends, the characters ECMAScript classifies as
  WhiteSpace or LineTerminator. The lemmas at the end show that `Trim` is
  exactly "the unique middle part of the string between two whitespace
  margins that neither starts nor ends with whitespace", which is the
  contract a caller relies on.
 */
module Text {

  /** WhiteSpace and LineTerminator code points of ECMAScript (section 12.2
      and 12.3 of ECMA-262): TAB, VT, FF, ZWNBSP, every space separator (Zs),
      LF, CR, LINE SEPARATOR and PARAGRAPH SEPARATOR. */
  predicate IsWhitespace(c: char) {
    || c == '\t' || c == '\U{000B}' || c == '\U{000C}' || c == '\U{FEFF}'
    || c == ' ' || c == '\U{00A0}' || c == '\U{1680}'
    || ('\U{2000}' <= c <= '\U{200A}')
    || c == '\U{202F}' || c == '\U{205F}' || c == '\U{3000}'
    || c == '\n' || c == '\r' || c == '\U{2028}' || c == '\U{2029}'
  }

  predicate AllWhitespace(s: string) {
    forall i :: 0 <= i < |s| ==> IsWhitespace(s[i])
  }

  /** Neither end of `s` is whitespace; the empty string qualifies. */
  predicate Trimmed(s: string) {
    |s| == 0 || (!IsWhitespace(s[0]) && !IsWhitespace(s[|s| - 1]))
  }

  /** Length of the whitespace run at the start of `s`. */
  function LeadingWhitespace(s: string): (n: nat)
    ensures n <= |s|
    ensures AllWhitespace(s[..n])
    ensures n == |s| || !IsWhitespace(s[n])
    decreases |s|
  {
    if |s| > 0 && IsWhitespace(s[0]) then
      var n := 1 + LeadingWhitespace(s[1..]);
      assert s[..n] == [s[0]] + s[1..][..n - 1];
      n
    else
      0
  }

  /** Length of the whitespace run at the end of `s`. */
  function TrailingWhitespace(s: string): (n: nat)
    ensures n <= |s|
    ensures AllWhitespace(s[|s| - n..])
    ensures n == |s| || !IsWhitespace(s[|s| - n - 1])
    decreases |s|
  {
    if |s| > 0 && IsWhitespace(s[|s| - 1]) then
      var init := s[..|s| - 1];
      var n := 1 + TrailingWhitespace(init);
      assert s[|s| - n..] == init[|init| - (n - 1)..] + [s[|s| - 1]];
      n
    else
      0
  }

  /** Drops the leading whitespace of `s`. */
  function TrimStart(s: string): string {
    s[LeadingWhitespace(s)..]
  }

  /** Drops the trailing whitespace of `s`. */
  function TrimEnd(s: string): string {
    s[..|s| - TrailingWhitespace(s)]
  }

  /** `String.prototype.trim`. */
  function Trim(s: string): (r: string)
    ensures Trimmed(r)
    ensures |r| <= |s|
  {
    TrimEnd(TrimStart(s))
  }

  /** Whatever surrounds a trimmed middle with whitespace, `TrimStart` removes
      exactly the leading margin. */
  lemma {:induction false} TrimStartSkips(p: string, u: string)
    requires AllWhitespace(p)
    requires |u| == 0 || !IsWhitespace(u[0])
    ensures TrimStart(p + u) == u
    decreases |p|
  {
    if |p| == 0 {
      assert p + u == u;
    } else {
      assert (p + u)[0] == p[0];
      assert (p + u)[1..] == p[1..] + u;
      TrimStartSkips(p[1..], u);
    }
  }

  lemma {:induction false} TrimEndSkips(u: string, q: string)
    requires AllWhitespace(q)
    requires |u| == 0 || !IsWhitespace(u[|u| - 1])
    ensures TrimEnd(u + q) == u
    decreases |q|
  {
    if |q| == 0 {
      assert u + q == u;
    } else {
      var n := |u + q|;
      assert (u + q)[n - 1] == q[|q| - 1];
      assert (u + q)[..n - 1] == u + q[..|q| - 1];
      TrimEndSkips(u, q[..|q| - 1]);
    }
  }

  /** Uniqueness: a string made of a whitespace margin, a trimmed middle and
      another whitespace margin trims to that middle. */
  lemma TrimUnique(p: string, t: string, q: string)
    requires AllWhitespace(p) && AllWhitespace(q)
    requires Trimmed(t)
    ensures Trim(p + t + q) == t
  {
    if |t| == 0 {
      assert p + t + q == (p + q) + "";
      assert AllWhitespace(p + q) by {
        forall i | 0 <= i < |p + q|
          ensures IsWhitespace((p + q)[i])
        {
          if i >= |p| {
            assert (p + q)[i] == q[i - |p|];
          }
        }
      }
      TrimStartSkips(p + q, "");
    } else {
      assert p + t + q == p + (t + q);
      assert (t + q)[0] == t[0];
      TrimStartSkips(p, t + q);
      TrimEndSkips(t, q);
    }
  }

  /** Existence: every string is a whitespace margin, its trim, and another
      whitespace margin, in that order. */
  lemma TrimDecomposes(s: string)
    ensures exists p, q :: s == p + Trim(s) + q && AllWhitespace(p) && AllWhitespace(q)
  {
    var u := TrimStart(s);
    var p := s[..|s| - |u|];
    var r := TrimEnd(u);
    var q := u[|r|..];
    assert u == r + q;
    assert s == p + u;
    assert Trim(s) == r;
    assert s == p + Trim(s) + q && AllWhitespace(p) && AllWhitespace(q);
  }

  /** Trimming twice is trimming once. */
  lemma TrimIdempotent(s: string)
    ensures Trim(Trim(s)) == Trim(s)
  {
    TrimKeepsTrimmed(Trim(s));
  }

  /** A string that neither starts nor ends with whitespace trims to itself. */
  lemma TrimKeepsTrimmed(t: string)
    requires Trimmed(t)
    ensures Trim(t) == t
  {
    assert "" + t + "" == t;
    TrimUnique("", t, "");
  }
}
